=== FILE: README.md ===
# Employee registration form: a Dafny model

This project models the client-side logic of a two-step employee registration
form that is backed by a Firestore collection. The model covers:

- **The form hook** (`useFormData`). The pure parts are the draft shape, the default draft, the
  spread merges, step validation and filled-field progress (`FormRules`). The stateful part is the
  `FormController` class, with the hook's six state fields, its actions and the draft slot in
  `localStorage` (`FormControl`).
- **The store adapter** (`Firebase`). This covers the mapping from error codes to messages, the
  documents that create and update send, and the conversion of a stored document into an `Employee`.
  It also covers the result and failure paths of the five operations. Each operation takes what its
  awaited Firestore call settled to as a parameter.
- **The navigation controller of the application shell** (`App.Navigation`). It holds `currentView`
  and `formStep`. The page's buttons and breadcrumb drive it. It validates nothing and does not use
  the hook.
- **The step-derived page values** (`ColaboradorForm`). These are the step progress bar, the heading,
  the button label and the next-click rule.
- **The step indicators** (`StepIndicator`, `VerticalStepIndicator`).
- **The field logic of the two form pages** (`PersonalInfoStep`, `ProfessionalInfoStep`). This
  includes the key agreement between their error lookups and the validation.

`validator.isEmail` is an external library, so it is a parameter `isEmail: string -> bool`. Every
statement about validation holds for every such predicate. Whitespace for `trim()` is the
ECMAScript WhiteSpace and LineTerminator set. The proofs use only the fact that certain letters are
not whitespace. `Math.round` of a quotient is exact integer rounding: the nearest integer, with
halves rounded up.

How JavaScript and React behaviour is represented:

- An `Option` field that is `None` stands for `undefined`.
- One method call is one React state update together with the effects it triggers.
- The save effect runs after mount. After that it runs again only when `formData` becomes a
  different object.

In these places the code behaves differently from what a reader of the form would expect, and the model follows the code:

- The "clear" action does not leave the slot empty in create mode. `clearFormData`
  (src/hooks/useFormData.ts:220-230) installs the shared `initialFormData` object. This re-triggers
  the save effect (src/hooks/useFormData.ts:118-122), which writes the defaults back. The one
  exception is when `formData` already was that object, for example on a fresh start where nothing
  was typed.
- `clearFormData` removes the slot in edit mode too. The claim that edit mode never touches storage
  therefore holds for every action except this one.
- The created avatar is always `#FF6B6B`. It is not drawn from a palette.
- The statuses are the strings `Ativo` and `Inativo`.
- Email validity is whatever `validator.isEmail` decides. The model does not use a pattern.
- The shell's step navigation (src/App.tsx) is a separate controller that validates nothing.
  `formStep` stays in {1, 2} only because the page asks for step + 1 below step 2.
- `calculateProgress` can only produce multiples of 25, and the default draft scores 25. The 67%
  expected at tests/core/form-submission.spec.ts:31 is unreachable. The 0% at
  tests/core/navigation.spec.ts:67 is the step bar of ColaboradorForm.tsx:26.

## Model

| member | source | states |
|---|---|---|
| `JsSemantics.RoundRatio` | src/hooks/useFormData.ts:64 | `Math.round(num/den)` as the integer nearest the exact quotient, halves upwards |
| `JsSemantics.TrimStart` | src/hooks/useFormData.ts:25 | the leading part of `trim()`: the result is a suffix of the input, everything dropped is whitespace, and a non-empty result starts with a non-whitespace character |
| `JsSemantics.TrimEnd` | src/hooks/useFormData.ts:25 | the trailing part of `trim()`: the result is a prefix of the input, everything dropped is whitespace, and a non-empty result ends with a non-whitespace character |
| `JsSemantics.TrimToEmpty` | src/hooks/useFormData.ts:61 | `s.trim() === ''` holds exactly when every character of `s` is whitespace |
| `JsSemantics.IsBlank` | src/hooks/useFormData.ts:25 | the `!x?.trim()` test used for the name, email and department: undefined and '' are blank, and a string starting with a non-whitespace character is not |
| `JsSemantics.BlankIffTrimsToEmpty` | src/hooks/useFormData.ts:25 | a value is blank iff it is undefined or its `trim()` is '', which is `!x?.trim()` read literally |
| `JsSemantics.OrEmpty` | src/components/forms/PersonalInfoStep.tsx:51 | a defined string is shown as it is (so '' stays ''), an undefined value shows as '' |
| `FormRules.Overlay` | src/hooks/useFormData.ts:125-133 | top-level spread: every section the new data has replaces the old one, absent sections are kept |
| `FormRules.MergePersonal` | src/hooks/useFormData.ts:136-150 | supplied personal fields overwrite, unsupplied ones keep their old value, a missing section becomes the patch |
| `FormRules.MergeProfessional` | src/hooks/useFormData.ts:153-167 | a supplied department overwrites, otherwise the old one is kept |
| `FormRules.ValidateStep` | src/hooks/useFormData.ts:20-49 | valid iff no error; step 1 keys are exactly the failing rules among name, email and flag, accumulated independently; the email gets "required" when blank, otherwise "malformed" when `isEmail` of the untrimmed text fails; step 2 fails only on a blank department; any other step is valid with no errors |
| `FormRules.TrackedFields` | src/hooks/useFormData.ts:53-58 | the four tracked values in the code's order: the first name, the email, 'set' iff the activation flag is defined (otherwise ''), and the department; a missing section gives undefined entries |
| `FormRules.CountFilled` | src/hooks/useFormData.ts:60-62 | the count of filled values never exceeds the number of values |
| `FormRules.CountFilledAll` | src/hooks/useFormData.ts:60-62 | the count equals the length iff every value is filled |
| `FormRules.CalculateProgress` | src/hooks/useFormData.ts:52-65 | 25 × filled fields, so one of 0, 25, 50, 75 and 100; 100 iff name, email, flag and department are all filled |
| `FormRules.InitialProgress` | src/hooks/useFormData.ts:8-17 | the default draft scores 25 because its `false` flag counts as set |
| `FormControl.Restore` | src/hooks/useFormData.ts:81-114 | create-mode start-up: defaults (no error) from an empty slot, defaults with the message 'Dados salvos corrompidos…' from a corrupt one; from a saved draft, each section the draft has is kept and each missing one comes from the defaults; both sections always present |
| `FormControl.RestoreRoundTrip` | src/hooks/useFormData.ts:82-122 | a draft the hook saved is restored unchanged, with no error |
| `FormControl.RestoreAfterReset` | src/hooks/useFormData.ts:220-230 | after a reset, whichever way the slot was left, start-up yields the defaults |
| `FormControl.FormController.constructor` | src/hooks/useFormData.ts:68-122 | step 1, no errors, not submitting, not valid; edit mode overlays the given data on the defaults and leaves the slot alone; create mode restores from the slot, then the mount effect saves the draft |
| `FormControl.FormController.Progress` | src/hooks/useFormData.ts:232-233 | the progress returned with the state is one of 0, 25, 50, 75 and 100 |
| `FormControl.FormController.SaveDraft` | src/hooks/useFormData.ts:117-122 | in create mode the slot holds the current draft; edit mode leaves the slot unchanged |
| `FormControl.FormController.UpdateFormData` | src/hooks/useFormData.ts:125-133 | the draft becomes the overlay; step, errors and flags are unchanged; in create mode the slot holds the new draft |
| `FormControl.FormController.UpdatePersonalInfo` | src/hooks/useFormData.ts:136-150 | only `personalInfo` changes, by the merge; the other sections, step, errors and flags are unchanged; the slot follows in create mode |
| `FormControl.FormController.UpdateProfessionalInfo` | src/hooks/useFormData.ts:153-167 | only `professionalInfo` changes, by the merge; everything else is unchanged; the slot follows in create mode |
| `FormControl.FormController.ValidateCurrentStep` | src/hooks/useFormData.ts:170-178 | returns and stores the current step's validity and errors; the draft and step are unchanged |
| `FormControl.FormController.NextStep` | src/hooks/useFormData.ts:181-191 | returns true iff the step validates; then the step becomes min(step+1, 2) and errors are cleared; otherwise the step is kept and the validation errors are shown; the draft never changes |
| `FormControl.FormController.PreviousStep` | src/hooks/useFormData.ts:194-200 | step becomes max(step−1, 1) and errors are cleared; the draft, validity and submitting flag are kept |
| `FormControl.FormController.GoToStep` | src/hooks/useFormData.ts:203-209 | step becomes the argument clamped to [1, 2] and errors are cleared; the draft, validity and submitting flag are kept |
| `FormControl.FormController.SetSubmitting` | src/hooks/useFormData.ts:212-217 | only the submitting flag changes |
| `FormControl.FormController.ClearFormData` | src/hooks/useFormData.ts:220-230 | all six fields are reset; the slot is removed and, in create mode, re-saved with the defaults unless the draft was already the default object; a later start-up sees the defaults |
| `Firebase.HandleFirebaseError` | src/services/firebase.ts:54-77 | an error without `code` gives the generic message; 'permission-denied', 'unavailable', 'not-found' and 'deadline-exceeded' each get their own fixed message; an unknown code appears verbatim in the message; total |
| `Firebase.KnownCodesDistinct` | src/services/firebase.ts:57-70 | the four known codes map to four different messages, none of them the generic one |
| `Firebase.StatusOf` | src/services/firebase.ts:87 | 'Ativo' iff the activation flag is true, otherwise 'Inativo' |
| `Firebase.CreatePayload` | src/services/firebase.ts:83-90 | the three sections are copied; the status is `StatusOf` of the personal section; the avatar is '#FF6B6B' and the creation time is the call time; a draft without `personalInfo` throws an error without code |
| `Firebase.CreateEmployee` | src/services/firebase.ts:81-96 | succeeds with the store's id iff the payload builds and `addDoc`, given that payload, resolves; a draft without `personalInfo` fails with the generic message, and an `addDoc` rejection fails with `handleFirebaseError` of that rejection |
| `Firebase.UpdatePayload` | src/services/firebase.ts:104-115 | each section is sent iff supplied; the status is sent iff `personalInfo` is, and is then `StatusOf` of it; never an avatar or a creation time |
| `Firebase.UpdateEmployee` | src/services/firebase.ts:98-121 | resolves iff `updateDoc`, given the patch built from the draft, does; a rejection fails with `handleFirebaseError` of that rejection |
| `Firebase.UpdateKeepsIdentity` | src/services/firebase.ts:104-117 | an applied update keeps avatar and creation time, and keeps personal data and status when `personalInfo` is not supplied |
| `Firebase.ConvertDocToEmployee` | src/services/firebase.ts:37-51 | the id comes from the document reference; name, email, department and status are copied from the document; the creation time is the stored one, or the current time when absent; the avatar is the stored one when non-empty, otherwise '#CCCCCC'; a missing section throws |
| `Firebase.CreateThenRead` | src/services/firebase.ts:37-90 | a created record reads back with the draft's fields, the status from its flag, the fixed avatar and its creation time |
| `Firebase.GetEmployee` | src/services/firebase.ts:123-136 | `null` exactly when the document does not exist; a found document gives its `convertDocToEmployee` record, or the generic error when that throws; a rejected read fails with `handleFirebaseError` of the rejection |
| `Firebase.ConvertAll` | src/services/firebase.ts:142 | converts every document in order, or fails if any one throws |
| `Firebase.GetAllEmployees` | src/services/firebase.ts:138-146 | an empty store gives an empty list; a fetched list succeeds iff every document converts, and then record i is `convertDocToEmployee` of document i; otherwise it fails with the generic error; a rejected query fails with `handleFirebaseError` of the rejection |
| `Firebase.DeleteEmployee` | src/services/firebase.ts:148-155 | resolves iff `deleteDoc` does; a rejection fails with `handleFirebaseError` of that rejection |
| `App.Navigation.constructor` | src/App.tsx:12-13 | starts at view 'home', step 1 |
| `App.Navigation.Layout` | src/App.tsx:39-44 | breadcrumbs iff the view is 'form'; totalSteps is always 2 |
| `App.Navigation.HandleCreateNew` | src/App.tsx:15-18 | view 'form' at step 1 from any state |
| `App.Navigation.HandleBackToList` | src/App.tsx:20-22 | view 'home', step unchanged (also the page's breadcrumb, ColaboradorForm.tsx:52-55) |
| `App.Navigation.HandleStepChange` | src/App.tsx:24-26 | the step becomes exactly the argument, unclamped; the view is unchanged |
| `App.Navigation.HandlePreviousStep` | src/App.tsx:28-34 | above step 1 it steps back and keeps the view; at step 1 it goes home and keeps the step; never drops below 1 (the page's Voltar, ColaboradorForm.tsx:150-152) |
| `App.Navigation.PressNext` | src/components/pages/ColaboradorForm.tsx:252-258 | below step 2 the step advances by one, at step 2 nothing changes, so the step stays in {1, 2} |
| `ColaboradorForm.ProgressPercentage` | src/components/pages/ColaboradorForm.tsx:25-26 | 0 at step 1 and 100 at step 2 |
| `ColaboradorForm.Heading` | src/components/pages/ColaboradorForm.tsx:186 | `stepTitles[step - 1]` iff the step is 1 or 2, otherwise undefined |
| `ColaboradorForm.ButtonLabel` | src/components/pages/ColaboradorForm.tsx:272 | 'Concluir' iff the step is 2, otherwise 'Próximo' |
| `ColaboradorForm.NextClick` | src/components/pages/ColaboradorForm.tsx:252-258 | asks for step+1 iff the step is below 2, and that request stays within [1, 2] |
| `StepIndicator.Percentage` | src/components/ui/StepIndicator.tsx:15 | finite exactly when totalSteps is not 1 |
| `StepIndicator.PercentageBounds` | src/components/ui/StepIndicator.tsx:15 | for totalSteps ≥ 2 and a step in range, within [0, 100], 0 at the first step and 100 at the last |
| `StepIndicator.PercentageMonotone` | src/components/ui/StepIndicator.tsx:15 | non-decreasing in the current step |
| `StepIndicator.Classify` | src/components/ui/StepIndicator.tsx:73-76 | the step at index i is numbered i+1, is active iff it is the current step, is completed iff it is before the current step, and is never both |
| `StepIndicator.Rows` | src/components/ui/StepIndicator.tsx:73-76 | one row per title, classified at its index |
| `StepIndicator.MarkerOf` | src/components/ui/StepIndicator.tsx:108 | a check mark iff the step is completed, otherwise its number |
| `StepIndicator.RowsClassification` | src/components/ui/StepIndicator.tsx:73-76 | rows are numbered from 1; no row is both active and completed; the completed rows are exactly those before the current step |
| `StepIndicator.ExactlyOneActive` | src/components/ui/StepIndicator.tsx:73-76 | with the current step among the titles exactly that row is active, otherwise none |
| `VerticalStepIndicator.Rows` | src/components/ui/VerticalStepIndicator.tsx:28-31 | one row per title, numbered index+1; active iff it is the current step; completed iff it is before the current step |
| `VerticalStepIndicator.SameAsHorizontal` | src/components/ui/VerticalStepIndicator.tsx:11-31 | the output ignores `totalSteps`, equals the horizontal classification, and never marks a row both active and completed |
| `PersonalInfoStep.HandleFieldChange` | src/components/forms/PersonalInfoStep.tsx:14-21 | exactly the changed field takes the event's value (`checked` from the switch, `value` from a text field); all others are kept |
| `PersonalInfoStep.GetFieldError` | src/components/forms/PersonalInfoStep.tsx:23-25 | the message under 'personalInfo.' + field, or '' when absent |
| `PersonalInfoStep.KeysAgree` | src/components/forms/PersonalInfoStep.tsx:23-25 | the keys the page reads are the keys the validation writes |
| `PersonalInfoStep.ShownErrors` | src/components/forms/PersonalInfoStep.tsx:23-25 | after step-1 validation each field shows exactly its failing rule's message, or nothing |
| `PersonalInfoStep.TypedNameSatisfiesRule` | src/components/forms/PersonalInfoStep.tsx:14-21 | typing a non-blank name clears the name rule |
| `PersonalInfoStep.DisplayedFirstName` | src/components/forms/PersonalInfoStep.tsx:51 | '' when the name is missing, otherwise the name |
| `PersonalInfoStep.DisplayedEmail` | src/components/forms/PersonalInfoStep.tsx:103 | '' when the email is missing, otherwise the email |
| `PersonalInfoStep.DisplayedActivation` | src/components/forms/PersonalInfoStep.tsx:148 | the switch is on iff the flag is true; a missing flag shows as off |
| `ProfessionalInfoStep.DepartmentOptions` | src/components/forms/ProfessionalInfoStep.tsx:21-32 | ten options with pairwise distinct, non-blank values |
| `ProfessionalInfoStep.Selectable` | src/components/forms/ProfessionalInfoStep.tsx:104-113 | the disabled '' placeholder cannot be picked, and every value that can be picked is non-blank |
| `ProfessionalInfoStep.HandleFieldChange` | src/components/forms/ProfessionalInfoStep.tsx:37-44 | the department becomes the selected value |
| `ProfessionalInfoStep.GetFieldError` | src/components/forms/ProfessionalInfoStep.tsx:46-48 | the message under 'professionalInfo.' + field, or '' when absent |
| `ProfessionalInfoStep.ShownError` | src/components/forms/ProfessionalInfoStep.tsx:46-48 | after step-2 validation the department shows its message exactly when it is blank |
| `ProfessionalInfoStep.SelectionValidates` | src/components/forms/ProfessionalInfoStep.tsx:104-134 | once any selectable department is chosen, step 2 validates |

## Left out

- Firestore I/O is not modelled. This covers `initializeApp`, the environment configuration, `addDoc`, `updateDoc`, `getDoc`, `getDocs`, `deleteDoc`, `Timestamp.now()` and `toDate()`. What each call settled to, and the clock reading, are parameters. `ApplyUpdate` states the store's documented top-level field replacement, and is used only to read off what an update keeps.
- The newest-first ordering of the list is done by the store query (src/services/firebase.ts:140). The model only preserves the order it is given.
- `validator.isEmail` is a parameter. Its email grammar is not modelled.
- `localStorage` and JSON are an abstract slot. A section stored as JSON `null` is not modelled. A saved value that parses to a non-object is read as a draft with no sections. Round-tripping a draft through JSON is taken to be the identity.
- `FormRules.MergePersonal`, `FormRules.MergeProfessional`, `FormRules.Overlay`: a patch key that is present but holds `undefined` is treated as absent. In the code such a key would erase the field.
- `FormRules.ValidateStep`, `FormRules.TrackedFields`, `FormRules.CalculateProgress`: `activateOnCreate === null` is identified with `undefined`. In the code, `null` passes the "defined" check of validation and counts as filled for progress (src/hooks/useFormData.ts:56).
- `FormControl.FormController.GoToStep`: the step is an integer. `NaN` and fractional arguments are not modelled.
- `StepIndicator.Percentage`, `ColaboradorForm.ProgressPercentage`, `FormRules.CalculateProgress`: the percentage is exact rational rounding. Floating-point error in `Math.round` is not modelled.
- React batching and stale closures are not modelled: each action is one atomic step on the current state. `console` output is not modelled either.
- `Firebase.ConvertAll`, `Firebase.GetAllEmployees`: one clock reading `now` stands in for a missing creation time in every document. The code evaluates `new Date()` once per converted document (src/services/firebase.ts:49, inside the map at :142), so those times may differ by a few milliseconds.
- `Firebase.ConvertDocToEmployee`: `lastName`, `phone` and `position` are left out, because no draft has those fields.
- Rendering and styling are not part of this model, and neither are ColaboradoresHome.tsx, the layout components, src/theme/index.ts or src/types/employee.ts. The draft type follows src/hooks/useFormData.ts:8-17.
- There is no submission, list, sort or delete logic in the pages to model: the final click only logs (src/components/pages/ColaboradorForm.tsx:257), and ColaboradoresHome.tsx shows a static empty state (src/components/pages/ColaboradoresHome.tsx:145).

=== FILE: app.dfy ===
/** The navigation state of the application shell (src/App.tsx) together with
    the two buttons and the breadcrumb of the registration page that call its
    handlers. This controller validates nothing and does not use the form hook. */
module App {
  import ColaboradorForm

  datatype View = Home | Form

  /** The props the shell hands to its layout. */
  datatype LayoutProps = LayoutProps(showBreadcrumbs: bool, currentStep: int, totalSteps: int)

  class Navigation {
    var currentView: View
    var formStep: int

    /** The step stays a page of the two-page form. */
    ghost predicate Valid()
      reads this
    {
      1 <= formStep <= 2
    }

    constructor ()
      ensures Valid()
      ensures currentView == Home && formStep == 1
    {
      currentView := Home;
      formStep := 1;
    }

    function Layout(): (r: LayoutProps)
      reads this
      ensures r.showBreadcrumbs <==> currentView == Form
      ensures r.totalSteps == 2 && r.currentStep == formStep
    {
      LayoutProps(currentView == Form, formStep, 2)
    }

    /** `handleCreateNew`: open the form at its first step. */
    method HandleCreateNew()
      modifies this
      ensures Valid()
      ensures currentView == Form && formStep == 1
    {
      currentView := Form;
      formStep := 1;
    }

    /** `handleBackToList`, also the page's breadcrumb link: home, step kept. */
    method HandleBackToList()
      modifies this
      ensures currentView == Home && formStep == old(formStep)
    {
      currentView := Home;
    }

    /** `handleStepChange(step)`: takes the step as given, unclamped. */
    method HandleStepChange(step: int)
      modifies this
      ensures formStep == step && currentView == old(currentView)
    {
      formStep := step;
    }

    /** `handlePreviousStep`, the page's Voltar button: one step back, or home from the first step. */
    method HandlePreviousStep()
      modifies this
      ensures old(formStep) > 1 ==> formStep == old(formStep) - 1 && currentView == old(currentView)
      ensures old(formStep) <= 1 ==> formStep == old(formStep) && currentView == Home
      ensures old(formStep) >= 1 ==> formStep >= 1
      ensures old(Valid()) ==> Valid()
    {
      if formStep > 1 {
        formStep := formStep - 1;
      } else {
        currentView := Home;
      }
    }

    /** The page's main button wired to `handleStepChange`: next page below
        the last one, nothing at the last one. */
    method PressNext()
      requires Valid()
      modifies this
      ensures Valid()
      ensures old(formStep) < 2 ==> formStep == old(formStep) + 1
      ensures old(formStep) == 2 ==> formStep == 2
      ensures currentView == old(currentView)
    {
      var requested := ColaboradorForm.NextClick(formStep);
      if requested.Some? {
        HandleStepChange(requested.value);
      }
    }
  }
}

=== FILE: colaborador_form.dfy ===
/** The step-derived values of the registration page
    (src/components/pages/ColaboradorForm.tsx). */
module ColaboradorForm {
  import opened Wrappers
  import opened JsSemantics

  const StepTitles := ["Infos B\U{E1}sicas", "Infos Profissionais"]
  const TotalSteps := 2

  /** The page's progress bar: Math.round((step - 1) / (totalSteps - 1) * 100). */
  function ProgressPercentage(step: int): (r: int)
    ensures step == 1 ==> r == 0
    ensures step == 2 ==> r == 100
  {
    RoundRatioExact(step - 1, 1);
    assert (step - 1) * 100 == 100 * (step - 1);
    RoundRatio((step - 1) * 100, TotalSteps - 1)
  }

  /** The heading `stepTitles[step - 1]`; `None` is `undefined` outside the array. */
  function Heading(step: int): (r: Option<string>)
    ensures r.Some? <==> 1 <= step <= |StepTitles|
    ensures r.Some? ==> r.value == StepTitles[step - 1]
  {
    if 1 <= step <= |StepTitles| then Some(StepTitles[step - 1]) else None
  }

  /** The label of the main button. */
  function ButtonLabel(step: int): (r: string)
    ensures r == "Concluir" <==> step == 2
    ensures r != "Concluir" ==> r == "Pr\U{F3}ximo"
  {
    if step == 2 then "Concluir" else "Pr\U{F3}ximo"
  }

  /** The step the main button asks `onStepChange` for; `None` at the last
      step, where the click only logs a submission. */
  function NextClick(step: int): (r: Option<int>)
    ensures r.Some? <==> step < TotalSteps
    ensures r.Some? ==> r.value == step + 1
    ensures 1 <= step <= TotalSteps && r.Some? ==> 1 <= r.value <= TotalSteps
  {
    if step < 2 then Some(step + 1) else None
  }
}

=== FILE: firebase.dfy ===
/** The pure parts of the record-store adapter (src/services/firebase.ts):
    error-code mapping, the documents written on create and update, and the
    conversion of a stored document into an `Employee`. The Firestore calls
    themselves are not modelled: what a call resolved to (or the error it
    rejected with) is a parameter of the operation that awaited it. */
module Firebase {
  import opened Wrappers
  import opened FormRules

  /** A store-side instant (`Timestamp`); its clock is not modelled. */
  type Timestamp = int

  /** What a `catch` receives: an object with a `code` property, or anything else. */
  datatype Thrown = WithCode(code: string) | WithoutCode

  /** The `Error` object the adapter throws. */
  datatype AppError = AppError(message: string)

  /** What an awaited store call settled to. */
  datatype Settled<T> = Resolved(value: T) | Rejected(thrown: Thrown)

  /** A Firestore document: each top-level field is present or absent. */
  datatype Document = Document(
    personalInfo: Option<PersonalInfo>,
    professionalInfo: Option<ProfessionalInfo>,
    additionalInfo: Option<AdditionalInfo>,
    status: Option<string>,
    avatar: Option<string>,
    createdAt: Option<Timestamp>)

  /** The record the list and detail views receive. Its `lastName`, `phone`
      and `position` are read from fields no draft has, so they are always
      `undefined` and are left out. */
  datatype Employee = Employee(
    id: string,
    firstName: Option<string>,
    email: Option<string>,
    department: Option<string>,
    status: Option<string>,
    avatar: string,
    createdAt: Timestamp)

  const GenericMessage := "Ocorreu um erro inesperado. Tente novamente."
  const PermissionDeniedMessage := "Permiss\U{E3}o negada. Verifique as regras de seguran\U{E7}a do Firestore."
  const UnavailableMessage := "O servi\U{E7}o est\U{E1} temporariamente indispon\U{ED}vel. Tente novamente mais tarde."
  const NotFoundMessage := "O documento solicitado n\U{E3}o foi encontrado."
  const DeadlineMessage := "O tempo para a opera\U{E7}\U{E3}o foi excedido. Verifique sua conex\U{E3}o com a internet."
  const UnknownCodePrefix := "Um erro ocorreu: "
  const UnknownCodeSuffix := ". Por favor, contate o suporte."

  const KnownCodes := {"permission-denied", "unavailable", "not-found", "deadline-exceeded"}

  const ActiveStatus := "Ativo"
  const InactiveStatus := "Inativo"
  const CreatedAvatar := "#FF6B6B"
  const DefaultAvatar := "#CCCCCC"

  /** `handleFirebaseError(error)`: total, never throws. */
  function HandleFirebaseError(e: Thrown): (r: AppError)
    ensures e.WithoutCode? ==> r.message == GenericMessage
    ensures e == WithCode("permission-denied") ==> r.message == PermissionDeniedMessage
    ensures e == WithCode("unavailable") ==> r.message == UnavailableMessage
    ensures e == WithCode("not-found") ==> r.message == NotFoundMessage
    ensures e == WithCode("deadline-exceeded") ==> r.message == DeadlineMessage
    ensures e.WithCode? && e.code !in KnownCodes ==>
      |UnknownCodePrefix| + |e.code| <= |r.message| &&
      r.message[|UnknownCodePrefix|..|UnknownCodePrefix| + |e.code|] == e.code
  {
    match e
    case WithoutCode => AppError(GenericMessage)
    case WithCode(code) =>
      if code == "permission-denied" then AppError(PermissionDeniedMessage)
      else if code == "unavailable" then AppError(UnavailableMessage)
      else if code == "not-found" then AppError(NotFoundMessage)
      else if code == "deadline-exceeded" then AppError(DeadlineMessage)
      else AppError(UnknownCodePrefix + code + UnknownCodeSuffix)
  }

  /** The four known codes get four different fixed messages, none of them the
      generic fallback, and the same message whatever else the error carries. */
  lemma KnownCodesDistinct(c1: string, c2: string)
    requires c1 in KnownCodes && c2 in KnownCodes
    ensures HandleFirebaseError(WithCode(c1)) == HandleFirebaseError(WithCode(c2)) <==> c1 == c2
    ensures HandleFirebaseError(WithCode(c1)) != HandleFirebaseError(WithoutCode)
  {
  }

  /** An error the adapter throws is always one `handleFirebaseError` made. */
  ghost predicate IsMapped(err: AppError) {
    exists t :: HandleFirebaseError(t) == err
  }

  /** `activateOnCreate ? 'Ativo' : 'Inativo'` */
  function StatusOf(p: PersonalInfo): (r: string)
    ensures r == ActiveStatus <==> p.activateOnCreate == Some(true)
    ensures r == InactiveStatus <==> p.activateOnCreate != Some(true)
  {
    if p.activateOnCreate == Some(true) then ActiveStatus else InactiveStatus
  }

  /** The `newEmployeeData` object of `createEmployee`. Reading
      `data.personalInfo.activateOnCreate` throws a `TypeError` (no `code`)
      when the draft has no `personalInfo`. */
  function CreatePayload(data: FormData, now: Timestamp): (r: Result<Document, Thrown>)
    ensures r.Failure? <==> data.personalInfo.None?
    ensures r.Failure? ==> r.error == WithoutCode
    ensures r.Success? ==>
      && r.value.personalInfo == data.personalInfo
      && r.value.professionalInfo == data.professionalInfo
      && r.value.additionalInfo == data.additionalInfo
      && r.value.status == Some(StatusOf(data.personalInfo.value))
      && r.value.avatar == Some(CreatedAvatar)
      && r.value.createdAt == Some(now)
  {
    if data.personalInfo.None? then Failure(WithoutCode)
    else Success(Document(
      data.personalInfo, data.professionalInfo, data.additionalInfo,
      Some(StatusOf(data.personalInfo.value)), Some(CreatedAvatar), Some(now)))
  }

  /** `createEmployee(data)`: the new id, or the mapped error. `addDoc` is
      how the store settles on the payload it is given; it is not called when
      building the payload threw. */
  function CreateEmployee(data: FormData, now: Timestamp, addDoc: Document -> Settled<string>): (r: Result<string, AppError>)
    ensures r.Failure? ==> IsMapped(r.error)
    ensures r.Success? <==> data.personalInfo.Some? && addDoc(CreatePayload(data, now).value).Resolved?
    ensures r.Success? ==> r.value == addDoc(CreatePayload(data, now).value).value
    ensures data.personalInfo.None? ==> r == Failure(HandleFirebaseError(WithoutCode))
    ensures data.personalInfo.Some? && addDoc(CreatePayload(data, now).value).Rejected? ==>
      r == Failure(HandleFirebaseError(addDoc(CreatePayload(data, now).value).thrown))
  {
    match CreatePayload(data, now)
    case Failure(t) => Failure(HandleFirebaseError(t))
    case Success(payload) =>
      match addDoc(payload)
      case Resolved(id) => Success(id)
      case Rejected(t) => Failure(HandleFirebaseError(t))
  }

  /** The `updateData` object of `updateEmployee`: a section is sent only when
      supplied, the status only with `personalInfo`, never an avatar or a
      creation time. */
  function UpdatePayload(data: FormData): (r: Document)
    ensures r.personalInfo == data.personalInfo
    ensures r.professionalInfo == data.professionalInfo
    ensures r.additionalInfo == data.additionalInfo
    ensures r.status == (if data.personalInfo.Some? then Some(StatusOf(data.personalInfo.value)) else None)
    ensures r.avatar.None? && r.createdAt.None?
  {
    Document(
      data.personalInfo, data.professionalInfo, data.additionalInfo,
      if data.personalInfo.Some? then Some(StatusOf(data.personalInfo.value)) else None,
      None, None)
  }

  /** `updateEmployee(id, data)`: resolves when `updateDoc`, given the patch
      built from `data`, did. */
  function UpdateEmployee(data: FormData, updateDoc: Document -> Settled<()>): (r: Result<(), AppError>)
    ensures r.Success? <==> updateDoc(UpdatePayload(data)).Resolved?
    ensures r.Failure? ==> IsMapped(r.error)
    ensures updateDoc(UpdatePayload(data)).Rejected? ==>
      r == Failure(HandleFirebaseError(updateDoc(UpdatePayload(data)).thrown))
  {
    match updateDoc(UpdatePayload(data))
    case Resolved(_) => Success(())
    case Rejected(t) => Failure(HandleFirebaseError(t))
  }

  /** The store's `updateDoc` on top-level fields: a field present in the
      patch replaces the stored one, an absent field is kept. This is the
      store's behaviour, stated here only to read off what an update keeps. */
  function ApplyUpdate(stored: Document, patch: Document): Document {
    Document(
      patch.personalInfo.Or(stored.personalInfo),
      patch.professionalInfo.Or(stored.professionalInfo),
      patch.additionalInfo.Or(stored.additionalInfo),
      patch.status.Or(stored.status),
      patch.avatar.Or(stored.avatar),
      patch.createdAt.Or(stored.createdAt))
  }

  /** An update never changes avatar or creation time, and one that supplies
      no `personalInfo` leaves the personal data and the status as they were. */
  lemma UpdateKeepsIdentity(stored: Document, data: FormData)
    ensures ApplyUpdate(stored, UpdatePayload(data)).avatar == stored.avatar
    ensures ApplyUpdate(stored, UpdatePayload(data)).createdAt == stored.createdAt
    ensures data.personalInfo.None? ==>
      ApplyUpdate(stored, UpdatePayload(data)).personalInfo == stored.personalInfo &&
      ApplyUpdate(stored, UpdatePayload(data)).status == stored.status
  {
  }

  /** `convertDocToEmployee(doc)`; `None` is the `TypeError` thrown when a
      section is missing. `now` is the `new Date()` used for a missing creation time. */
  function ConvertDocToEmployee(id: string, doc: Document, now: Timestamp): (r: Option<Employee>)
    ensures r.Some? <==> doc.personalInfo.Some? && doc.professionalInfo.Some?
    ensures r.Some? ==> r.value.id == id && r.value.avatar != ""
    ensures r.Some? ==>
      && r.value.firstName == doc.personalInfo.value.firstName
      && r.value.email == doc.personalInfo.value.email
      && r.value.department == doc.professionalInfo.value.department
      && r.value.status == doc.status
      && r.value.createdAt == (if doc.createdAt.Some? then doc.createdAt.value else now)
    ensures r.Some? && doc.avatar.Some? && doc.avatar.value != "" ==> r.value.avatar == doc.avatar.value
    ensures r.Some? && (doc.avatar.None? || doc.avatar.value == "") ==> r.value.avatar == DefaultAvatar
  {
    if doc.personalInfo.None? || doc.professionalInfo.None? then None
    else
      var p, q := doc.personalInfo.value, doc.professionalInfo.value;
      Some(Employee(
        id, p.firstName, p.email, q.department, doc.status,
        if doc.avatar.Some? && doc.avatar.value != "" then doc.avatar.value else DefaultAvatar,
        if doc.createdAt.Some? then doc.createdAt.value else now))
  }

  /** A record written by `createEmployee` reads back with the draft's fields,
      the fixed avatar, the status derived from the flag and its creation time. */
  lemma CreateThenRead(data: FormData, id: string, now: Timestamp, later: Timestamp)
    requires data.personalInfo.Some? && data.professionalInfo.Some?
    ensures CreatePayload(data, now).Success?
    ensures ConvertDocToEmployee(id, CreatePayload(data, now).value, later) ==
      Some(Employee(id, FirstNameOf(data), EmailOf(data), DepartmentOf(data),
                    Some(if ActivateOf(data) == Some(true) then ActiveStatus else InactiveStatus),
                    CreatedAvatar, now))
  {
  }

  /** `getEmployee(id)`: `null` (here `None`) when the document does not exist. */
  function GetEmployee(id: string, fetched: Settled<Option<Document>>, now: Timestamp): (r: Result<Option<Employee>, AppError>)
    ensures r == Success(None) <==> fetched == Resolved(None)
    ensures r.Success? && r.value.Some? ==> fetched.Resolved? && fetched.value.Some? && r.value.value.id == id
    ensures fetched.Resolved? && fetched.value.Some? ==>
      && (r.Success? <==> ConvertDocToEmployee(id, fetched.value.value, now).Some?)
      && (r.Success? ==> r.value == ConvertDocToEmployee(id, fetched.value.value, now))
      && (r.Failure? ==> r.error == HandleFirebaseError(WithoutCode))
    ensures fetched.Rejected? ==> r == Failure(HandleFirebaseError(fetched.thrown))
    ensures r.Failure? ==> IsMapped(r.error)
  {
    match fetched
    case Rejected(t) => Failure(HandleFirebaseError(t))
    case Resolved(None) => Success(None)
    case Resolved(Some(doc)) =>
      match ConvertDocToEmployee(id, doc, now)
      case None => Failure(HandleFirebaseError(WithoutCode))
      case Some(e) => Success(Some(e))
  }

  /** `docs.map(convertDocToEmployee)`; `None` when some document throws. */
  function ConvertAll(docs: seq<(string, Document)>, now: Timestamp): (r: Option<seq<Employee>>)
    ensures r.Some? <==> forall i :: 0 <= i < |docs| ==> ConvertDocToEmployee(docs[i].0, docs[i].1, now).Some?
    ensures r.Some? ==> |r.value| == |docs|
    ensures r.Some? ==> forall i :: 0 <= i < |docs| ==> Some(r.value[i]) == ConvertDocToEmployee(docs[i].0, docs[i].1, now)
  {
    if docs == [] then Some([])
    else
      match (ConvertDocToEmployee(docs[0].0, docs[0].1, now), ConvertAll(docs[1..], now))
      case (Some(e), Some(rest)) => Some([e] + rest)
      case _ => None
  }

  /** `getAllEmployees()`: the records in the order the query returned them
      (newest first is the query's ordering, done by the store). */
  function GetAllEmployees(fetched: Settled<seq<(string, Document)>>, now: Timestamp): (r: Result<seq<Employee>, AppError>)
    ensures fetched == Resolved([]) ==> r == Success([])
    ensures r.Success? ==> fetched.Resolved? && |r.value| == |fetched.value|
    ensures r.Success? ==> forall i :: 0 <= i < |r.value| ==> r.value[i].id == fetched.value[i].0
    ensures fetched.Resolved? ==>
      && (r.Success? <==> forall i :: 0 <= i < |fetched.value| ==>
            ConvertDocToEmployee(fetched.value[i].0, fetched.value[i].1, now).Some?)
      && (r.Failure? ==> r.error == HandleFirebaseError(WithoutCode))
    ensures r.Success? ==> forall i :: 0 <= i < |r.value| ==>
      Some(r.value[i]) == ConvertDocToEmployee(fetched.value[i].0, fetched.value[i].1, now)
    ensures fetched.Rejected? ==> r == Failure(HandleFirebaseError(fetched.thrown))
    ensures r.Failure? ==> IsMapped(r.error)
  {
    match fetched
    case Rejected(t) => Failure(HandleFirebaseError(t))
    case Resolved(docs) =>
      match ConvertAll(docs, now)
      case None => Failure(HandleFirebaseError(WithoutCode))
      case Some(es) => Success(es)
  }

  /** `deleteEmployee(id)`: resolves when `deleteDoc` did. */
  function DeleteEmployee(deleted: Settled<()>): (r: Result<(), AppError>)
    ensures r.Success? <==> deleted.Resolved?
    ensures deleted.Rejected? ==> r == Failure(HandleFirebaseError(deleted.thrown))
    ensures r.Failure? ==> IsMapped(r.error)
  {
    match deleted
    case Resolved(_) => Success(())
    case Rejected(t) => Failure(HandleFirebaseError(t))
  }
}

=== FILE: form_controller.dfy ===
/** The state that the `useFormData` hook keeps with `useState`, its actions,
    and the draft slot in `localStorage` (src/hooks/useFormData.ts).

    A React state update plus the effects it triggers is one method call here.
    The save effect runs after mount and whenever the `formData` object is
    replaced by another object; `clearFormData` installs the shared
    `initialFormData` object, so it re-triggers the effect unless `formData`
    already was that object. The field `sharesInitialObject` tracks this. */
module FormControl {
  import opened Wrappers
  import opened JsSemantics
  import opened FormRules

  /** What `localStorage.getItem(STORAGE_KEY)` yields, after `JSON.parse`:
      nothing usable (`null` or ''), a draft, or text that does not parse. */
  datatype Slot = Empty | Saved(draft: FormData) | Corrupt

  const CorruptDraftMessage := "Dados salvos corrompidos. O formul\U{E1}rio foi resetado."

  /** The browser's `localStorage` entry under the hook's fixed key. */
  class DraftStorage {
    var slot: Slot

    constructor (initial: Slot)
      ensures slot == initial
    {
      slot := initial;
    }
  }

  /** Create-mode start-up: the draft and the `localStorageError` read from the slot. */
  function Restore(slot: Slot): (r: (FormData, Option<string>))
    ensures HasSections(r.0)
    ensures r.1.Some? <==> slot.Corrupt?
    ensures !slot.Saved? ==> r.0 == InitialFormData
    ensures slot.Corrupt? ==> r.1 == Some(CorruptDraftMessage)
    ensures slot.Saved? ==>
      && r.0.personalInfo == (if slot.draft.personalInfo.Some? then slot.draft.personalInfo else InitialFormData.personalInfo)
      && r.0.professionalInfo == (if slot.draft.professionalInfo.Some? then slot.draft.professionalInfo else InitialFormData.professionalInfo)
      && r.0.additionalInfo == (if slot.draft.additionalInfo.Some? then slot.draft.additionalInfo else InitialFormData.additionalInfo)
  {
    match slot
    case Empty => (InitialFormData, None)
    case Saved(saved) => (Overlay(InitialFormData, saved), None)
    case Corrupt => (InitialFormData, Some(CorruptDraftMessage))
  }

  /** A draft the hook wrote comes back unchanged when the hook is created
      again in create mode. */
  lemma RestoreRoundTrip(d: FormData)
    requires HasSections(d)
    ensures Restore(Saved(d)) == (d, None)
  {
  }

  /** After a reset, a new hook starts from the defaults whichever way the slot was left. */
  lemma RestoreAfterReset(slot: Slot)
    requires slot == Empty || slot == Saved(InitialFormData)
    ensures Restore(slot) == (InitialFormData, None)
  {
  }

  /** The keys `validateStep` can ever produce. */
  const ErrorKeys := PersonalKeys + {DepartmentKey}

  class FormController {
    /** `validator.isEmail` */
    const isEmail: string -> bool
    /** `initialData` was supplied: edit mode, which never touches the slot. */
    const editMode: bool
    const storage: DraftStorage

    var currentStep: int
    var formData: FormData
    var errors: map<string, string>
    var isSubmitting: bool
    var isValid: bool
    var localStorageError: Option<string>

    /** `formData` is the very object `initialFormData`: React decides whether
        to re-run the save effect by this identity, not by value. */
    var sharesInitialObject: bool

    ghost predicate Valid()
      reads this, storage
    {
      && 1 <= currentStep <= 2
      && (isValid ==> errors == map[])
      && errors.Keys <= ErrorKeys
      && HasSections(formData)
      && (sharesInitialObject ==> formData == InitialFormData)
      && (!editMode ==>
            storage.slot == Saved(formData) || (storage.slot == Empty && sharesInitialObject))
    }

    /** The `useState` initialiser followed by the mount run of the save effect. */
    constructor (storage: DraftStorage, initialData: Option<FormData>, isEmail: string -> bool)
      modifies storage
      ensures Valid()
      ensures this.storage == storage && this.isEmail == isEmail
      ensures editMode <==> initialData.Some?
      ensures currentStep == 1 && errors == map[] && !isSubmitting && !isValid
      ensures initialData.Some? ==>
        formData == Overlay(InitialFormData, initialData.value) && localStorageError == None &&
        storage.slot == old(storage.slot)
      ensures initialData.None? ==>
        (formData, localStorageError) == Restore(old(storage.slot)) && storage.slot == Saved(formData)
    {
      this.isEmail := isEmail;
      this.storage := storage;
      editMode := initialData.Some?;
      currentStep := 1;
      errors := map[];
      isSubmitting := false;
      isValid := false;
      if initialData.Some? {
        formData := Overlay(InitialFormData, initialData.value);
        localStorageError := None;
        sharesInitialObject := false;
      } else {
        var restored := Restore(storage.slot);
        formData := restored.0;
        localStorageError := restored.1;
        sharesInitialObject := !storage.slot.Saved?;
      }
      new;
      if !editMode {
        storage.slot := Saved(formData);
      }
    }

    /** The progress the hook returns with its state. */
    function Progress(): (r: int)
      reads this
      ensures r in {0, 25, 50, 75, 100}
    {
      CalculateProgress(formData)
    }

    /** The save effect, run after `formData` became a new object. */
    method SaveDraft()
      requires HasSections(formData)
      modifies this`sharesInitialObject, storage
      ensures !sharesInitialObject
      ensures storage.slot == if editMode then old(storage.slot) else Saved(formData)
    {
      sharesInitialObject := false;
      if !editMode {
        storage.slot := Saved(formData);
      }
    }

    /** `updateFormData(newData)`: top-level spread of the new sections. */
    method UpdateFormData(newData: FormData)
      requires Valid()
      modifies this, storage
      ensures Valid()
      ensures formData == Overlay(old(formData), newData)
      ensures currentStep == old(currentStep) && errors == old(errors) && isValid == old(isValid)
      ensures isSubmitting == old(isSubmitting) && localStorageError == old(localStorageError)
      ensures storage.slot == if editMode then old(storage.slot) else Saved(formData)
    {
      formData := Overlay(formData, newData);
      SaveDraft();
    }

    /** `updatePersonalInfo(patch)`: only the supplied personal fields change. */
    method UpdatePersonalInfo(patch: PersonalInfo)
      requires Valid()
      modifies this, storage
      ensures Valid()
      ensures formData == old(formData).(personalInfo := Some(MergePersonal(old(formData).personalInfo, patch)))
      ensures currentStep == old(currentStep) && errors == old(errors) && isValid == old(isValid)
      ensures isSubmitting == old(isSubmitting) && localStorageError == old(localStorageError)
      ensures storage.slot == if editMode then old(storage.slot) else Saved(formData)
    {
      formData := formData.(personalInfo := Some(MergePersonal(formData.personalInfo, patch)));
      SaveDraft();
    }

    /** `updateProfessionalInfo(patch)`: only the supplied professional fields change. */
    method UpdateProfessionalInfo(patch: ProfessionalInfo)
      requires Valid()
      modifies this, storage
      ensures Valid()
      ensures formData == old(formData).(professionalInfo := Some(MergeProfessional(old(formData).professionalInfo, patch)))
      ensures currentStep == old(currentStep) && errors == old(errors) && isValid == old(isValid)
      ensures isSubmitting == old(isSubmitting) && localStorageError == old(localStorageError)
      ensures storage.slot == if editMode then old(storage.slot) else Saved(formData)
    {
      formData := formData.(professionalInfo := Some(MergeProfessional(formData.professionalInfo, patch)));
      SaveDraft();
    }

    /** `validateCurrentStep()`: stores the errors of the current step and reports validity. */
    method ValidateCurrentStep() returns (ok: bool)
      requires Valid()
      modifies this
      ensures Valid()
      ensures ok == ValidateStep(old(currentStep), old(formData), isEmail).isValid
      ensures errors == ValidateStep(old(currentStep), old(formData), isEmail).errors && isValid == ok
      ensures currentStep == old(currentStep) && formData == old(formData)
      ensures isSubmitting == old(isSubmitting) && localStorageError == old(localStorageError)
      ensures sharesInitialObject == old(sharesInitialObject)
    {
      var validation := ValidateStep(currentStep, formData, isEmail);
      errors, isValid := validation.errors, validation.isValid;
      ok := validation.isValid;
    }

    /** `nextStep()`: advances (at most to step 2) only when the current step validates. */
    method NextStep() returns (advanced: bool)
      requires Valid()
      modifies this
      ensures Valid()
      ensures advanced == ValidateStep(old(currentStep), old(formData), isEmail).isValid
      ensures advanced ==> currentStep == Min(old(currentStep) + 1, 2) && errors == map[] && isValid
      ensures !advanced ==>
        currentStep == old(currentStep) && !isValid &&
        errors == ValidateStep(old(currentStep), old(formData), isEmail).errors
      ensures formData == old(formData)
      ensures isSubmitting == old(isSubmitting) && localStorageError == old(localStorageError)
      ensures sharesInitialObject == old(sharesInitialObject)
    {
      advanced := ValidateCurrentStep();
      if advanced {
        currentStep := Min(currentStep + 1, 2);
        errors := map[];
      }
    }

    /** `previousStep()`: one step back, never below 1; errors cleared. */
    method PreviousStep()
      requires Valid()
      modifies this
      ensures Valid()
      ensures currentStep == Max(old(currentStep) - 1, 1) && errors == map[]
      ensures formData == old(formData) && isValid == old(isValid)
      ensures isSubmitting == old(isSubmitting) && localStorageError == old(localStorageError)
      ensures sharesInitialObject == old(sharesInitialObject)
    {
      currentStep := Max(currentStep - 1, 1);
      errors := map[];
    }

    /** `goToStep(step)`: the step clamped into [1, 2]; errors cleared. */
    method GoToStep(step: int)
      requires Valid()
      modifies this
      ensures Valid()
      ensures currentStep == Max(1, Min(step, 2)) && errors == map[]
      ensures 1 <= step <= 2 ==> currentStep == step
      ensures formData == old(formData) && isValid == old(isValid)
      ensures isSubmitting == old(isSubmitting) && localStorageError == old(localStorageError)
      ensures sharesInitialObject == old(sharesInitialObject)
    {
      currentStep := Max(1, Min(step, 2));
      errors := map[];
    }

    /** `setSubmitting(flag)` */
    method SetSubmitting(flag: bool)
      requires Valid()
      modifies this
      ensures Valid()
      ensures isSubmitting == flag
      ensures currentStep == old(currentStep) && formData == old(formData) && errors == old(errors)
      ensures isValid == old(isValid) && localStorageError == old(localStorageError)
      ensures sharesInitialObject == old(sharesInitialObject)
    {
      isSubmitting := flag;
    }

    /** `clearFormData()`: removes the slot (in edit mode too) and resets all
        six state fields. In create mode the save effect then writes the
        defaults back unless `formData` already was the shared default object;
        either way a later start-up in create mode sees the defaults. */
    method ClearFormData()
      requires Valid()
      modifies this, storage
      ensures Valid()
      ensures currentStep == 1 && formData == InitialFormData && errors == map[]
      ensures !isSubmitting && !isValid && localStorageError == None
      ensures storage.slot == if editMode || old(sharesInitialObject) then Empty else Saved(InitialFormData)
      ensures Restore(storage.slot) == (InitialFormData, None)
    {
      var wasInitialObject := sharesInitialObject;
      storage.slot := Empty;
      currentStep, formData, errors := 1, InitialFormData, map[];
      isSubmitting, isValid, localStorageError := false, false, None;
      sharesInitialObject := true;
      if !editMode && !wasInitialObject {
        storage.slot := Saved(formData);
      }
    }
  }
}

=== FILE: form_rules.dfy ===
/** The pure parts of the form hook: the draft shape, its default value, the
    top-level and per-section spread merges, step validation and the
    filled-field progress (src/hooks/useFormData.ts). */
module FormRules {
  import opened Wrappers
  import opened JsSemantics

  /** `personalInfo` of a draft; a field that is `None` is `undefined`. */
  datatype PersonalInfo = PersonalInfo(firstName: Option<string>, email: Option<string>, activateOnCreate: Option<bool>)

  /** `professionalInfo` of a draft (department only). */
  datatype ProfessionalInfo = ProfessionalInfo(department: Option<string>)

  /** `additionalInfo`: carried through untouched by the hook and the store adapter. */
  datatype AdditionalInfo = AdditionalInfo(emergencyContact: Option<string>, notes: Option<string>)

  /** `Partial<EmployeeFormData>`: each section is an object or absent. */
  datatype FormData = FormData(
    personalInfo: Option<PersonalInfo>,
    professionalInfo: Option<ProfessionalInfo>,
    additionalInfo: Option<AdditionalInfo>)

  datatype ValidationResult = ValidationResult(isValid: bool, errors: map<string, string>)

  /** The module-level `initialFormData` constant. */
  const InitialFormData := FormData(
    Some(PersonalInfo(Some(""), Some(""), Some(false))),
    Some(ProfessionalInfo(Some(""))),
    None)

  // The dotted keys of the error map.
  const FirstNameKey := "personalInfo.firstName"
  const EmailKey := "personalInfo.email"
  const ActivateOnCreateKey := "personalInfo.activateOnCreate"
  const DepartmentKey := "professionalInfo.department"
  const PersonalKeys := {FirstNameKey, EmailKey, ActivateOnCreateKey}

  // The messages stored under those keys.
  const FirstNameRequired := "Nome \U{E9} obrigat\U{F3}rio"
  const EmailRequired := "E-mail \U{E9} obrigat\U{F3}rio"
  const EmailMalformed := "E-mail deve ter um formato v\U{E1}lido"
  const ActivationRequired := "Definir status de ativa\U{E7}\U{E3}o \U{E9} obrigat\U{F3}rio"
  const DepartmentRequired := "Departamento \U{E9} obrigat\U{F3}rio"

  /** The sections of a draft that always exist once the hook has built it. */
  predicate HasSections(d: FormData) {
    d.personalInfo.Some? && d.professionalInfo.Some?
  }

  // Optional chaining: `d.personalInfo?.firstName` and friends.
  function FirstNameOf(d: FormData): Option<string> {
    if d.personalInfo.Some? then d.personalInfo.value.firstName else None
  }

  function EmailOf(d: FormData): Option<string> {
    if d.personalInfo.Some? then d.personalInfo.value.email else None
  }

  function ActivateOf(d: FormData): Option<bool> {
    if d.personalInfo.Some? then d.personalInfo.value.activateOnCreate else None
  }

  function DepartmentOf(d: FormData): Option<string> {
    if d.professionalInfo.Some? then d.professionalInfo.value.department else None
  }

  /** `{ ...base, ...top }`: every section `top` has replaces the one of `base`. */
  function Overlay(base: FormData, top: FormData): (r: FormData)
    ensures r.personalInfo == if top.personalInfo.Some? then top.personalInfo else base.personalInfo
    ensures r.professionalInfo == if top.professionalInfo.Some? then top.professionalInfo else base.professionalInfo
    ensures r.additionalInfo == if top.additionalInfo.Some? then top.additionalInfo else base.additionalInfo
  {
    FormData(
      top.personalInfo.Or(base.personalInfo),
      top.professionalInfo.Or(base.professionalInfo),
      top.additionalInfo.Or(base.additionalInfo))
  }

  /** `{ ...base, ...patch }` on `personalInfo`: the supplied fields win. */
  function MergePersonal(base: Option<PersonalInfo>, patch: PersonalInfo): (r: PersonalInfo)
    ensures patch.firstName.Some? ==> r.firstName == patch.firstName
    ensures patch.email.Some? ==> r.email == patch.email
    ensures patch.activateOnCreate.Some? ==> r.activateOnCreate == patch.activateOnCreate
    ensures base.Some? && patch.firstName.None? ==> r.firstName == base.value.firstName
    ensures base.Some? && patch.email.None? ==> r.email == base.value.email
    ensures base.Some? && patch.activateOnCreate.None? ==> r.activateOnCreate == base.value.activateOnCreate
    ensures base.None? ==> r == patch
  {
    if base.None? then patch
    else PersonalInfo(
      patch.firstName.Or(base.value.firstName),
      patch.email.Or(base.value.email),
      patch.activateOnCreate.Or(base.value.activateOnCreate))
  }

  /** `{ ...base, ...patch }` on `professionalInfo`. */
  function MergeProfessional(base: Option<ProfessionalInfo>, patch: ProfessionalInfo): (r: ProfessionalInfo)
    ensures patch.department.Some? ==> r == patch
    ensures patch.department.None? ==> r.department == (if base.Some? then base.value.department else None)
  {
    if base.None? then patch
    else ProfessionalInfo(patch.department.Or(base.value.department))
  }

  /** `validateStep(step, formData)`. `isEmail` stands for `validator.isEmail`,
      whose grammar is not modelled: every statement holds for every `isEmail`. */
  function ValidateStep(step: int, d: FormData, isEmail: string -> bool): (r: ValidationResult)
    // validity is exactly "no error was recorded"
    ensures r.isValid <==> r.errors == map[]
    // step 1: each rule fails independently and fails under its own key
    ensures step == 1 ==> r.errors.Keys <= PersonalKeys
    ensures step == 1 ==> (FirstNameKey in r.errors <==> IsBlank(FirstNameOf(d)))
    ensures step == 1 ==> (EmailKey in r.errors <==> IsBlank(EmailOf(d)) || !isEmail(EmailOf(d).value))
    ensures step == 1 ==> (ActivateOnCreateKey in r.errors <==> ActivateOf(d).None?)
    ensures step == 1 ==>
      (r.isValid <==> !IsBlank(FirstNameOf(d)) && !IsBlank(EmailOf(d)) && isEmail(EmailOf(d).value) && ActivateOf(d).Some?)
    // the email gets one message: "required" when blank, otherwise "malformed"
    ensures step == 1 && EmailKey in r.errors ==>
      r.errors[EmailKey] == if IsBlank(EmailOf(d)) then EmailRequired else EmailMalformed
    // step 2: only the department can fail
    ensures step == 2 ==> r.errors.Keys <= {DepartmentKey}
    ensures step == 2 ==> (r.isValid <==> !IsBlank(DepartmentOf(d)))
    // any other step passes
    ensures step != 1 && step != 2 ==> r.isValid && r.errors == map[]
  {
    if step == 1 then
      var e1: map<string, string> := if IsBlank(FirstNameOf(d)) then map[FirstNameKey := FirstNameRequired] else map[];
      var e2 := if IsBlank(EmailOf(d)) then e1[EmailKey := EmailRequired]
                else if !isEmail(EmailOf(d).value) then e1[EmailKey := EmailMalformed]
                else e1;
      var e3 := if ActivateOf(d).None? then e2[ActivateOnCreateKey := ActivationRequired] else e2;
      ValidationResult(|e3| == 0, e3)
    else if step == 2 then
      var e: map<string, string> := if IsBlank(DepartmentOf(d)) then map[DepartmentKey := DepartmentRequired] else map[];
      ValidationResult(|e| == 0, e)
    else
      ValidationResult(true, map[])
  }

  /** A tracked value counts as filled when it is a string that does not trim to ''. */
  predicate Filled(x: Option<string>) {
    !IsBlank(x)
  }

  /** The four values `calculateProgress` inspects, in its order; the flag is
      tracked as 'set' when defined and '' when `undefined`. */
  function TrackedFields(d: FormData): (r: seq<Option<string>>)
    ensures |r| == 4
    ensures r[0] == (if d.personalInfo.Some? then d.personalInfo.value.firstName else None)
    ensures r[1] == (if d.personalInfo.Some? then d.personalInfo.value.email else None)
    ensures r[2] == Some("set") <==> d.personalInfo.Some? && d.personalInfo.value.activateOnCreate.Some?
    ensures r[2] != Some("set") ==> r[2] == Some("")
    ensures r[3] == (if d.professionalInfo.Some? then d.professionalInfo.value.department else None)
  {
    [FirstNameOf(d), EmailOf(d), if ActivateOf(d).Some? then Some("set") else Some(""), DepartmentOf(d)]
  }

  /** `fields.filter(filled).length` */
  function CountFilled(fields: seq<Option<string>>): (n: nat)
    ensures n <= |fields|
  {
    if fields == [] then 0 else (if Filled(fields[0]) then 1 else 0) + CountFilled(fields[1..])
  }

  /** Every tracked value is filled exactly when the count reaches the length. */
  lemma {:induction false} CountFilledAll(fields: seq<Option<string>>)
    ensures CountFilled(fields) == |fields| <==> forall i :: 0 <= i < |fields| ==> Filled(fields[i])
  {
    if fields != [] {
      CountFilledAll(fields[1..]);
      assert forall i :: 1 <= i < |fields| ==> fields[i] == fields[1..][i - 1];
    }
  }

  /** `calculateProgress(formData)`: Math.round(filled / 4 * 100). */
  function CalculateProgress(d: FormData): (r: int)
    ensures r == 25 * CountFilled(TrackedFields(d))
    ensures r in {0, 25, 50, 75, 100}
    ensures r == 100 <==>
      Filled(FirstNameOf(d)) && Filled(EmailOf(d)) && ActivateOf(d).Some? && Filled(DepartmentOf(d))
  {
    var fields := TrackedFields(d);
    var n := CountFilled(fields);
    RoundRatioExact(n * 25, 4);
    CountFilledAll(fields);
    assert !TrimsToEmpty("set") by { assert !IsWhitespace("set"[0]); }
    assert (forall i :: 0 <= i < |fields| ==> Filled(fields[i])) <==>
      Filled(fields[0]) && Filled(fields[1]) && Filled(fields[2]) && Filled(fields[3]);
    RoundRatio(n * 100, |fields|)
  }

  /** The default draft scores 25: only the flag, defaulted to `false`, counts. */
  lemma InitialProgress()
    ensures CalculateProgress(InitialFormData) == 25
  {
    var fields := TrackedFields(InitialFormData);
    assert !TrimsToEmpty("set") by { assert !IsWhitespace("set"[0]); }
    assert fields == [Some(""), Some(""), Some("set"), Some("")];
    assert CountFilled(fields[3..]) == 0;
    assert CountFilled(fields[2..]) == 1 by { assert fields[2..][1..] == fields[3..]; }
    assert CountFilled(fields[1..]) == 1 by { assert fields[1..][1..] == fields[2..]; }
  }
}

=== FILE: js_semantics.dfy ===
/** The few pieces of JavaScript semantics the form logic relies on:
    `String.prototype.trim` emptiness, truthiness of an optional string,
    `Math.round` of a quotient, `Math.min` and `Math.max`. */
module JsSemantics {
  import opened Wrappers

  /** ECMAScript WhiteSpace and LineTerminator code points: the characters
      `trim()` strips. Only "some letters are not whitespace" is used by the
      proofs; which other characters belong here does not matter to them. */
  predicate IsWhitespace(c: char) {
    || c in {'\t', '\U{000B}', '\U{000C}', ' ', '\U{00A0}', '\U{FEFF}', '\U{1680}',
             '\U{202F}', '\U{205F}', '\U{3000}', '\n', '\r', '\U{2028}', '\U{2029}'}
    || ('\U{2000}' <= c <= '\U{200A}')
  }

  /** `s.trimStart()`: drops the leading whitespace. */
  function TrimStart(s: string): (r: string)
    ensures |r| <= |s| && r == s[|s| - |r|..]
    ensures forall i :: 0 <= i < |s| - |r| ==> IsWhitespace(s[i])
    ensures r != "" ==> !IsWhitespace(r[0])
  {
    if s != "" && IsWhitespace(s[0]) then TrimStart(s[1..]) else s
  }

  /** `s.trimEnd()`: drops the trailing whitespace. */
  function TrimEnd(s: string): (r: string)
    ensures |r| <= |s| && r == s[..|r|]
    ensures forall i :: |r| <= i < |s| ==> IsWhitespace(s[i])
    ensures r != "" ==> !IsWhitespace(r[|r| - 1])
  {
    if s != "" && IsWhitespace(s[|s| - 1]) then TrimEnd(s[..|s| - 1]) else s
  }

  /** `s.trim()` */
  function Trim(s: string): string {
    TrimEnd(TrimStart(s))
  }

  /** The strings made of whitespace only. */
  predicate TrimsToEmpty(s: string) {
    forall i :: 0 <= i < |s| ==> IsWhitespace(s[i])
  }

  /** `s.trim() === ''` holds exactly for the strings made of whitespace only. */
  lemma TrimToEmpty(s: string)
    ensures Trim(s) == "" <==> TrimsToEmpty(s)
  {
  }

  /** `!x?.trim()`: the value is `undefined`, or a string of whitespace only
      (the empty string included). */
  function IsBlank(x: Option<string>): (r: bool)
    ensures x.None? || x == Some("") ==> r
    ensures x.Some? && x.value != "" && !IsWhitespace(x.value[0]) ==> !r
  {
    x.None? || TrimsToEmpty(x.value)
  }

  /** `IsBlank` is `!x?.trim()` read literally: undefined, or trimming to ''. */
  lemma BlankIffTrimsToEmpty(x: Option<string>)
    ensures IsBlank(x) <==> x.None? || Trim(x.value) == ""
  {
    if x.Some? {
      TrimToEmpty(x.value);
    }
  }

  /** `x || ''` for an optional string. */
  function OrEmpty(x: Option<string>): (r: string)
    ensures x.Some? ==> r == x.value
    ensures x.None? ==> r == ""
  {
    if x.Some? then x.value else ""
  }

  function Min(a: int, b: int): int { if a <= b then a else b }

  function Max(a: int, b: int): int { if a >= b then a else b }

  /** `Math.round(num / den)` computed exactly: the integer nearest to the
      quotient, halves rounded upwards (towards +infinity), as `Math.round` does. */
  function RoundRatio(num: int, den: int): (r: int)
    requires den != 0
    ensures den > 0 ==> den * (2 * r - 1) <= 2 * num < den * (2 * r + 1)
    ensures den < 0 ==> -den * (2 * r - 1) <= -2 * num < -den * (2 * r + 1)
  {
    var n, d := if den > 0 then num else -num, if den > 0 then den else -den;
    var r := (2 * n + d) / (2 * d);
    assert 2 * d * r <= 2 * n + d < 2 * d * r + 2 * d;
    r
  }

  /** Multiplying by a positive number keeps the order. */
  lemma MulMonotone(d: int, x: int, y: int)
    requires d > 0 && x <= y
    ensures d * x <= d * y
  {
    var k := y - x;
    assert d * y == d * x + d * k;
  }

  /** `Math.round(num / den)` does not decrease as the numerator grows. */
  lemma RoundRatioMonotone(a: int, b: int, den: int)
    requires den > 0 && a <= b
    ensures RoundRatio(a, den) <= RoundRatio(b, den)
  {
    var ra, rb := RoundRatio(a, den), RoundRatio(b, den);
    if ra > rb {
      MulMonotone(den, 2 * rb + 1, 2 * ra - 1);
      assert false;
    }
  }

  /** The quotient of `d * q + rest` by `d` is `q` when `0 <= rest < d`. */
  lemma DivUnique(a: int, d: int, q: int, rest: int)
    requires d > 0 && a == d * q + rest && 0 <= rest < d
    ensures a / d == q
  {
    var q', r' := a / d, a % d;
    assert a == d * q' + r' && 0 <= r' < d;
    if q' < q {
      MulMonotone(d, q' + 1, q);
      assert false;
    } else if q' > q {
      MulMonotone(d, q + 1, q');
      assert false;
    }
  }

  /** Rounding an exact multiple returns that multiple. */
  lemma RoundRatioExact(k: int, den: int)
    requires den > 0
    ensures RoundRatio(k * den, den) == k
  {
    DivUnique(2 * (k * den) + den, 2 * den, k, den);
  }
}

=== FILE: personal_info_step.dfy ===
/** The first page's field logic (src/components/forms/PersonalInfoStep.tsx):
    a change event replaces one field of the section, errors are looked up
    under the same dotted keys the validation writes, and missing values are
    displayed as '' or `false`. */
module PersonalInfoStep {
  import opened Wrappers
  import opened JsSemantics
  import opened FormRules

  datatype Field = FirstName | Email | ActivateOnCreate

  /** An input's change event: the switch reports `checked`, a text field `value`. */
  datatype ChangeEvent = CheckboxEvent(checked: bool) | TextEvent(value: string)

  function FieldName(f: Field): string {
    match f
    case FirstName => "firstName"
    case Email => "email"
    case ActivateOnCreate => "activateOnCreate"
  }

  /** The rendered inputs: the switch is bound to `activateOnCreate`, a text field to the others. */
  predicate Wired(f: Field, ev: ChangeEvent) {
    (f == ActivateOnCreate) == ev.CheckboxEvent?
  }

  /** `handleFieldChange(field)(event)`: `{ ...data, [field]: value }`. */
  function HandleFieldChange(data: PersonalInfo, f: Field, ev: ChangeEvent): (r: PersonalInfo)
    requires Wired(f, ev)
    ensures f == FirstName ==> r == data.(firstName := Some(ev.value))
    ensures f == Email ==> r == data.(email := Some(ev.value))
    ensures f == ActivateOnCreate ==> r == data.(activateOnCreate := Some(ev.checked))
  {
    match f
    case FirstName => data.(firstName := Some(ev.value))
    case Email => data.(email := Some(ev.value))
    case ActivateOnCreate => data.(activateOnCreate := Some(ev.checked))
  }

  /** `getFieldError(field)`: `errors['personalInfo.' + field] || ''`. */
  function GetFieldError(errors: map<string, string>, field: string): (r: string)
    ensures ("personalInfo." + field) !in errors ==> r == ""
    ensures ("personalInfo." + field) in errors ==> r == errors["personalInfo." + field]
  {
    var key := "personalInfo." + field;
    if key in errors then errors[key] else ""
  }

  /** The key the page reads for a field is the key the validation writes for it. */
  lemma KeysAgree()
    ensures "personalInfo." + FieldName(FirstName) == FirstNameKey
    ensures "personalInfo." + FieldName(Email) == EmailKey
    ensures "personalInfo." + FieldName(ActivateOnCreate) == ActivateOnCreateKey
  {
  }

  /** What the page shows under each field after validating the first step:
      the message of the rule that failed, or nothing. */
  lemma ShownErrors(d: FormData, isEmail: string -> bool)
    ensures GetFieldError(ValidateStep(1, d, isEmail).errors, FieldName(FirstName)) ==
      if IsBlank(FirstNameOf(d)) then FirstNameRequired else ""
    ensures GetFieldError(ValidateStep(1, d, isEmail).errors, FieldName(Email)) ==
      if IsBlank(EmailOf(d)) then EmailRequired else if !isEmail(EmailOf(d).value) then EmailMalformed else ""
    ensures GetFieldError(ValidateStep(1, d, isEmail).errors, FieldName(ActivateOnCreate)) ==
      if ActivateOf(d).None? then ActivationRequired else ""
  {
    KeysAgree();
    var r := ValidateStep(1, d, isEmail);
    if IsBlank(FirstNameOf(d)) {
      assert r.errors[FirstNameKey] == FirstNameRequired;
    }
    if ActivateOf(d).None? {
      assert r.errors[ActivateOnCreateKey] == ActivationRequired;
    }
  }

  /** Typing a non-blank name into the page clears the name rule of the first step. */
  lemma TypedNameSatisfiesRule(d: FormData, text: string, isEmail: string -> bool)
    requires d.personalInfo.Some? && !TrimsToEmpty(text)
    ensures FirstNameKey !in
      ValidateStep(1, d.(personalInfo := Some(HandleFieldChange(d.personalInfo.value, FirstName, TextEvent(text)))), isEmail).errors
  {
  }

  /** `data.firstName || ''` */
  function DisplayedFirstName(data: PersonalInfo): (r: string)
    ensures data.firstName.None? ==> r == ""
    ensures data.firstName.Some? ==> r == data.firstName.value
  {
    OrEmpty(data.firstName)
  }

  /** `data.email || ''` */
  function DisplayedEmail(data: PersonalInfo): (r: string)
    ensures data.email.None? ==> r == ""
    ensures data.email.Some? ==> r == data.email.value
  {
    OrEmpty(data.email)
  }

  /** `data.activateOnCreate || false` */
  function DisplayedActivation(data: PersonalInfo): (r: bool)
    ensures r <==> data.activateOnCreate == Some(true)
  {
    data.activateOnCreate.Some? && data.activateOnCreate.value
  }
}

=== FILE: professional_info_step.dfy ===
/** The second page's field logic (src/components/forms/ProfessionalInfoStep.tsx):
    the fixed department options, the department change and the error lookup. */
module ProfessionalInfoStep {
  import opened Wrappers
  import opened JsSemantics
  import opened FormRules

  /** An entry of `departmentOptions`; `caption` is the option's `label`, which is a
      reserved word in Dafny. */
  datatype DepartmentOption = DepartmentOption(value: string, caption: string)

  /** `departmentOptions`: ten options with distinct, non-blank values. */
  function DepartmentOptions(): (r: seq<DepartmentOption>)
    ensures |r| == 10
    ensures forall i, j :: 0 <= i < j < |r| ==> r[i].value != r[j].value
    ensures forall i :: 0 <= i < |r| ==> r[i].value != "" && !IsWhitespace(r[i].value[0])
  {
    [ DepartmentOption("desenvolvimento", "Desenvolvimento"),
      DepartmentOption("design", "Design"),
      DepartmentOption("marketing", "Marketing"),
      DepartmentOption("vendas", "Vendas"),
      DepartmentOption("rh", "Recursos Humanos"),
      DepartmentOption("financeiro", "Financeiro"),
      DepartmentOption("operacoes", "Opera\U{E7}\U{F5}es"),
      DepartmentOption("suporte", "Suporte ao Cliente"),
      DepartmentOption("ti", "TI"),
      DepartmentOption("produto", "Produto") ]
  }

  /** A value the user can pick: the '' placeholder is disabled, so only an option's value. */
  function Selectable(v: string): (r: bool)
    ensures r ==> !IsBlank(Some(v))
    ensures v == "" ==> !r
  {
    exists i :: 0 <= i < |DepartmentOptions()| && DepartmentOptions()[i].value == v
  }

  /** `handleFieldChange('department')(event)`: `{ ...data, department: value }`. */
  function HandleFieldChange(data: ProfessionalInfo, value: string): (r: ProfessionalInfo)
    ensures r.department == Some(value)
  {
    data.(department := Some(value))
  }

  /** `getFieldError(field)`: `errors['professionalInfo.' + field] || ''`. */
  function GetFieldError(errors: map<string, string>, field: string): (r: string)
    ensures ("professionalInfo." + field) !in errors ==> r == ""
    ensures ("professionalInfo." + field) in errors ==> r == errors["professionalInfo." + field]
  {
    var key := "professionalInfo." + field;
    if key in errors then errors[key] else ""
  }

  /** The page shows the validation's department message exactly when the rule fails. */
  lemma ShownError(d: FormData, isEmail: string -> bool)
    ensures GetFieldError(ValidateStep(2, d, isEmail).errors, "department") ==
      if IsBlank(DepartmentOf(d)) then DepartmentRequired else ""
  {
    assert "professionalInfo." + "department" == DepartmentKey;
    var r := ValidateStep(2, d, isEmail);
    if IsBlank(DepartmentOf(d)) {
      assert r.errors[DepartmentKey] == DepartmentRequired;
    }
  }

  /** After the user picks any department, the second step validates. */
  lemma SelectionValidates(d: FormData, v: string, isEmail: string -> bool)
    requires d.professionalInfo.Some? && Selectable(v)
    ensures ValidateStep(2, d.(professionalInfo := Some(HandleFieldChange(d.professionalInfo.value, v))), isEmail).isValid
  {
    var i :| 0 <= i < |DepartmentOptions()| && DepartmentOptions()[i].value == v;
    assert !IsWhitespace(v[0]);
  }
}

=== FILE: step_indicator.dfy ===
/** The horizontal step indicator (src/components/ui/StepIndicator.tsx): a
    progress percentage and one circle per step title. */
module StepIndicator {
  import opened Wrappers
  import opened JsSemantics

  /** What a step circle shows. */
  datatype Marker = CheckMark | Number(n: int)

  /** One entry of `stepTitles.map(...)`. */
  datatype StepRow = StepRow(stepNumber: int, title: string, isActive: bool, isCompleted: bool)

  /** Math.round((currentStep - 1) / (totalSteps - 1) * 100); `None` is the
      non-finite number a single-step indicator divides into. */
  function Percentage(currentStep: int, totalSteps: int): (r: Option<int>)
    ensures r.Some? <==> totalSteps != 1
  {
    if totalSteps == 1 then None else Some(RoundRatio((currentStep - 1) * 100, totalSteps - 1))
  }

  /** From the first to the last step the percentage runs from 0 to 100 and stays within. */
  lemma PercentageBounds(currentStep: int, totalSteps: int)
    requires 2 <= totalSteps && 1 <= currentStep <= totalSteps
    ensures Percentage(currentStep, totalSteps).Some?
    ensures 0 <= Percentage(currentStep, totalSteps).value <= 100
    ensures currentStep == 1 ==> Percentage(currentStep, totalSteps).value == 0
    ensures currentStep == totalSteps ==> Percentage(currentStep, totalSteps).value == 100
  {
    var d := totalSteps - 1;
    RoundRatioExact(0, d);
    RoundRatioExact(100, d);
    assert (d + 1 - 1) * 100 == 100 * d;
    MulMonotone(100, 0, currentStep - 1);
    MulMonotone(100, currentStep - 1, d);
    RoundRatioMonotone(0, (currentStep - 1) * 100, d);
    RoundRatioMonotone((currentStep - 1) * 100, 100 * d, d);
  }

  /** A later step never shows a smaller percentage. */
  lemma PercentageMonotone(s1: int, s2: int, totalSteps: int)
    requires 2 <= totalSteps && s1 <= s2
    ensures Percentage(s1, totalSteps).value <= Percentage(s2, totalSteps).value
  {
    MulMonotone(100, s1 - 1, s2 - 1);
    RoundRatioMonotone((s1 - 1) * 100, (s2 - 1) * 100, totalSteps - 1);
  }

  /** The classification of the step at `index` (0-based). */
  function Classify(currentStep: int, index: int, title: string): (r: StepRow)
    ensures r.stepNumber == index + 1 && r.title == title
    ensures r.isActive <==> currentStep == r.stepNumber
    ensures r.isCompleted <==> currentStep > r.stepNumber
    ensures !(r.isActive && r.isCompleted)
  {
    StepRow(index + 1, title, currentStep == index + 1, currentStep > index + 1)
  }

  /** `stepTitles.map((title, index) => ...)` */
  function Rows(currentStep: int, stepTitles: seq<string>): (r: seq<StepRow>)
    ensures |r| == |stepTitles|
    ensures forall i :: 0 <= i < |r| ==> r[i] == Classify(currentStep, i, stepTitles[i])
  {
    seq(|stepTitles|, i requires 0 <= i < |stepTitles| => Classify(currentStep, i, stepTitles[i]))
  }

  /** A completed step shows a check mark, any other step its number. */
  function MarkerOf(row: StepRow): (m: Marker)
    ensures m == CheckMark <==> row.isCompleted
    ensures m != CheckMark ==> m == Number(row.stepNumber)
  {
    if row.isCompleted then CheckMark else Number(row.stepNumber)
  }

  /** Steps are numbered from 1, no step is both active and completed, and the
      completed steps are exactly those before the current one. */
  lemma RowsClassification(currentStep: int, stepTitles: seq<string>)
    ensures forall i :: 0 <= i < |stepTitles| ==>
      var row := Rows(currentStep, stepTitles)[i];
      && row.stepNumber == i + 1
      && row.title == stepTitles[i]
      && !(row.isActive && row.isCompleted)
      && (row.isCompleted <==> i + 1 < currentStep)
      && (row.isActive <==> i + 1 == currentStep)
  {
  }

  /** When the current step is one of the titled steps, exactly one step is
      active, and it is the current one; otherwise none is. */
  lemma ExactlyOneActive(currentStep: int, stepTitles: seq<string>)
    ensures 1 <= currentStep <= |stepTitles| ==>
      Rows(currentStep, stepTitles)[currentStep - 1].isActive &&
      forall i :: 0 <= i < |stepTitles| && Rows(currentStep, stepTitles)[i].isActive ==> i == currentStep - 1
    ensures !(1 <= currentStep <= |stepTitles|) ==>
      forall i :: 0 <= i < |stepTitles| ==> !Rows(currentStep, stepTitles)[i].isActive
  {
  }
}

=== FILE: vertical_step_indicator.dfy ===
/** The vertical step indicator of the registration page
    (src/components/ui/VerticalStepIndicator.tsx). It classifies steps as the
    horizontal indicator does and ignores its `totalSteps` prop. */
module VerticalStepIndicator {
  import StepIndicator

  /** `stepTitles.map(...)`; `totalSteps` is accepted and unused. */
  function Rows(currentStep: int, totalSteps: int, stepTitles: seq<string>): (r: seq<StepIndicator.StepRow>)
    ensures |r| == |stepTitles|
    ensures forall i :: 0 <= i < |r| ==> r[i].stepNumber == i + 1 && r[i].title == stepTitles[i]
    ensures forall i :: 0 <= i < |r| ==> (r[i].isActive <==> currentStep == i + 1)
    ensures forall i :: 0 <= i < |r| ==> (r[i].isCompleted <==> currentStep > i + 1)
  {
    seq(|stepTitles|, i requires 0 <= i < |stepTitles| =>
      StepIndicator.StepRow(i + 1, stepTitles[i], currentStep == i + 1, currentStep > i + 1))
  }

  /** The rows do not depend on `totalSteps`, coincide with the horizontal
      indicator's, and so no row is both active and completed. */
  lemma SameAsHorizontal(currentStep: int, t1: int, t2: int, stepTitles: seq<string>)
    ensures Rows(currentStep, t1, stepTitles) == Rows(currentStep, t2, stepTitles)
    ensures Rows(currentStep, t1, stepTitles) == StepIndicator.Rows(currentStep, stepTitles)
    ensures forall i :: 0 <= i < |stepTitles| ==>
      !(Rows(currentStep, t1, stepTitles)[i].isActive && Rows(currentStep, t1, stepTitles)[i].isCompleted)
  {
  }
}

=== FILE: wrappers.dfy ===
/** Option and Result, the two failure-carrying shapes the model uses:
    `Option` for a JavaScript value that may be `undefined`, `Result` for an
    asynchronous operation that either resolves or rejects with an `Error`. */
module Wrappers {

  datatype Option<+T> = None | Some(value: T) {
    /** `a ?? b` for a value that is either present or `undefined`. */
    function Or(other: Option<T>): Option<T> {
      if Some? then this else other
    }
  }

  datatype Result<+R, +E> = Success(value: R) | Failure(error: E)
}
